=== FILE: README.md ===
# HexaBody tick model

A Dafny model of the per-tick body controller of a VR physics avatar
(`Body/HexaBody.cs`). Each physics tick the controller:

1. takes the tracked poses and trackpad values;
2. drives the two hand joints toward the hands;
3. turns the head and rig;
4. rolls or brakes a sphere that carries the body;
5. keeps the body under the player's real position;
6. runs a crouch-then-release jump gesture;
7. when not mid-gesture, sets the crouch from the player's real head height.

The model has two layers:

- `BodyModel` states one tick as a function on values. `FixedUpdate` maps
  the state before the tick, the tuning (`Settings.Config`), the tick's
  samples (`Sample`) and the tick length `dt` to the state after the tick.
  Each sub-step is its own function, called in the controller's order.
- `Controller.HexaBody` is the controller as an object. Its fields are the
  controller's own state plus the engine objects it writes: the spine joint
  target, the sphere's drag, freeze flag and torques, the head, rig, chest
  and body transforms, the XR camera's rotation, and the hand joint
  targets and rotations. There is one method per
  step of the tick, and each is proved to produce exactly the state that
  the matching `BodyModel` function gives.

`TickProperties` proves what the tick guarantees, both for one tick and
for runs of ticks. `Crouch` holds the clamp, the three crouch-height
computations and the arithmetic of repeated clamped steps. `Vectors` holds
the torque axis and the hand targets.

Points of the code that the model keeps:

- **Step order.** Locomotion runs before the jump step. So the crouch
  torque depends on the jumping flag as it stood before the tick: the
  first tick of a press issues no crouch torque.
- **The release rise is overwritten.** A release tick clears the jumping
  flag. The physical crouch then runs in the same tick and replaces the
  raised height. As a result, `jumpSpeed` has no effect on any tick
  (`JumpSpeedHasNoEffect`). A press-and-release gesture ends at the
  physical crouch height of the release tick, not at a height computed
  from the height before the press (`ReleaseAfterAnyRun`). It is
  guaranteed to end no lower than it started when it started grounded and
  the camera has not dropped (`ReleaseNotBelowGroundedStart`). Without
  that condition it can end lower (`ReleaseCanEndBelowStart`).
- **Torques accumulate.** Every torque is appended to a log. With the left
  pad touched while the body was already jumping before the tick, the
  sprint (or walk) torque and the crouch torque are both issued, in that
  order. The later one does not replace the earlier one.
- **Inputs are exact comparisons.** Press and touch values are reals
  compared with `== 0` and `== 1`, as in the code. A value that is neither
  0 nor 1 triggers no branch, and lemmas cover that case too.
- **The stop test.** `velocity == Vector3.zero` uses the engine's vector
  equality, which is approximate. Two vectors compare equal when the
  squared length of their difference is below (1e-5)². The model states
  exactly that (`BodyModel.Stopped`). The exact zero vector is one case
  of it (`StoppedBounds`). The code does not use an exact-zero test.
- **The engine's clamp.** `Mathf.Clamp` returns the lower bound when the
  value is below it, else the upper bound when the value is above it,
  else the value. `Crouch.Clamp` is that function and puts no demand on
  the order of the bounds.

## Model

| member | source | states |
|---|---|---|
| Vectors.TorqueAxis | Body/HexaBody.cs:133 | the sphere torque axis has no vertical part, is perpendicular to the move direction and has the same horizontal length |
| Vectors.TorqueAxisHalfTurn | Body/HexaBody.cs:133 | applying the axis map twice reverses the horizontal direction (it is a quarter turn) |
| Vectors.TorqueAxisNormalizable | Body/HexaBody.cs:133 | the torque axis can be normalized exactly when the move direction's horizontal length exceeds 1e-5; a direction with no horizontal part gives one that cannot |
| BodyModel.MoveDirectionTorque | Body/HexaBody.cs:178 | the torque applied for a move direction is twice the force when the direction's horizontal length exceeds 1e-5, and zero otherwise (pad touched at its centre) |
| Vectors.HandTarget | Body/HexaBody.cs:216-217 | a hand target added to the camera position gives back the hand position |
| Vectors.HandTargetTranslationInvariant | Body/HexaBody.cs:216-217 | moving hand and camera together leaves the hand target unchanged |
| Crouch.Clamp | Body/HexaBody.cs:197 | the clamp lies in the bounds when they are ordered, is the identity inside them and takes the violated bound outside them |
| Crouch.PreloadHeight | Body/HexaBody.cs:195-199 | a preload write lies in [minCrouch, maxCrouch], is the height lowered by crouchSpeed·dt when that stays in range, and never raises an in-bounds height |
| Crouch.ReleaseHeight | Body/HexaBody.cs:202-206 | a release write lies in [minCrouch, maxCrouch], is the height raised by jumpSpeed·dt when that stays in range, and never lowers an in-bounds height |
| Crouch.PhysicalHeight | Body/HexaBody.cs:209-212 | with ordered bounds a physical-crouch write lies in [minCrouch, maxCrouch − additionalHeight], and is camera height − additionalHeight when that is in range |
| Crouch.ScenarioGroundedHeight | Body/HexaBody.cs:210 | with additionalHeight 0.2 and the default bounds, a camera at 1.0 gives crouch height 0.8 |
| Crouch.PreloadStepsClosedForm | Body/HexaBody.cs:197 | n preload writes from an in-bounds height equal one clamp of the height lowered n times by crouchSpeed·dt, and never raise it |
| TickProperties.JumpFrame | Body/HexaBody.cs:189-192 | the jump step changes only the jumping flag, the crouch height and the spine target |
| TickProperties.MoveBodyFrame | Body/HexaBody.cs:166-171 | the locomotion step changes only the sphere's drag, freeze flag and torques and the moving flag |
| TickProperties.ReleasedTick | Body/HexaBody.cs:94-95 | a tick with right press 0, including a release tick, ends not jumping, with crouch height clamp(cameraY − additionalHeight, minCrouch, maxCrouch − additionalHeight) and the spine at (0, height, 0) |
| TickProperties.PressedTick | Body/HexaBody.cs:189-199 | a tick with right press 1 ends jumping with the height lowered by one clamped preload step, spine mirrored, and (from in-bounds, crouchSpeed·dt ≥ 0) not higher than before |
| TickProperties.UndecidedPressTick | Body/HexaBody.cs:189-192 | a right press neither 0 nor 1 keeps a jumping body's crouch and spine targets, and gives a grounded body the physical crouch |
| TickProperties.TickEstablishesCrouchInvariant | Body/HexaBody.cs:195-212 | with ordered bounds every tick that writes the crouch ends in [minCrouch, maxCrouch], in [minCrouch, maxCrouch − additionalHeight] when not jumping, spine mirrored |
| TickProperties.TickPreservesCrouchInvariant | Body/HexaBody.cs:88-97 | every tick preserves that crouch invariant |
| TickProperties.JumpSpeedHasNoEffect | Body/HexaBody.cs:202-206 | the result of a tick does not depend on jumpSpeed, because the release write is always overwritten in the same tick |
| TickProperties.BrakeTick | Body/HexaBody.cs:182-186 | left touch 0: no torque, brake drag, not moving, rotation frozen when the sphere is stopped and otherwise left as it was |
| TickProperties.DriveTick | Body/HexaBody.cs:166-179 | left touch 1: torques appended are walk (press 0) or sprint (press 1), then crouch if jumping before the tick, each applying twice its force about the normalized torque axis (nothing when the axis is too short to normalize); any torque sets the move drag, unfreezes and sets moving; no torque changes none of these |
| TickProperties.CentredPadAppliesNothing | Body/HexaBody.cs:133 | left pad touched at its centre: the tick keeps the earlier torques, and every torque it adds has magnitude zero |
| TickProperties.IdleTouchTick | Body/HexaBody.cs:166-171 | a left touch neither 0 nor 1 leaves torques, drag, freeze and moving untouched |
| TickProperties.StoppedBounds | Body/HexaBody.cs:184 | the zero velocity counts as stopped; a velocity with an x, y or z component of size at least 1e-5 does not |
| TickProperties.TurnTick | Body/HexaBody.cs:156-163 | right press 1 leaves head, rig and chest yaw unchanged; otherwise head and rig turn by rightTrackpad.x·turnSpeed and the chest takes the camera yaw |
| TickProperties.ScenarioTurn | Body/HexaBody.cs:158 | turn speed 3 and right pad x 0.5, unpressed, turn the head by 1.5 degrees |
| TickProperties.PoseTick | Body/HexaBody.cs:215-220 | hand targets are hands relative to the camera, hand rotations are copied, the body takes the camera's x/z and keeps its y, the XR camera takes the camera's rotation |
| TickProperties.RunPreservesCrouchInvariant | Body/HexaBody.cs:88-97 | the crouch invariant holds after any number of ticks |
| TickProperties.RunFromRestKeepsCrouchInBounds | Body/HexaBody.cs:88-97 | from any state not mid-gesture (as a new controller is), every non-empty run of ticks ends with the crouch target in bounds and the spine mirroring it |
| TickProperties.HeldPressSteps | Body/HexaBody.cs:195-199 | n held ticks take the crouch height through n clamped preload steps and end jumping with the spine mirrored |
| TickProperties.HeldPressRun | Body/HexaBody.cs:197 | n held ticks from an in-bounds height give clamp(y − n·crouchSpeed·dt) (n times the step, see Crouch.TimesIsProduct) and never raise the height |
| TickProperties.HeldPressNoTurn | Body/HexaBody.cs:157 | while the jump button is held, no number of ticks turns the head, rig or chest |
| TickProperties.ReleaseAfterAnyRun | Body/HexaBody.cs:88-95 | any run of ticks closed by a release (press 0), in particular held presses then release, ends not jumping at the release tick's physical crouch height, spine mirrored, whatever the height before |
| Crouch.PhysicalHeightMonotone | Body/HexaBody.cs:210 | with ordered bounds a higher camera never gives a lower physical crouch height |
| TickProperties.ReleaseNotBelowGroundedStart | Body/HexaBody.cs:88-95 | a gesture that starts grounded at the physical height for camera y0 and is released with the camera at y0 or higher ends no lower than it started |
| TickProperties.ReleaseCanEndBelowStart | Body/HexaBody.cs:88-95 | with offset 0.2 and default bounds, a body at 0.8 released with the camera at 0.6 ends at 0.4, below where it started |
| Controller.HexaBody.constructor | Body/HexaBody.cs:57-58 | a new controller is neither jumping nor moving; everything else is the scene's |
| Controller.HexaBody.FixedUpdate | Body/HexaBody.cs:88-97 | one tick runs hands, rotation and locomotion, rig sync, jump, then physical crouch unless jumping; new state is BodyModel.FixedUpdate of the old; it preserves the crouch invariant |
| Controller.HexaBody.MoveAndRotateHands | Body/HexaBody.cs:215-220 | the hand joint targets and rotations are set as BodyModel.MoveAndRotateHands says |
| Controller.HexaBody.MoveAndRotateBody | Body/HexaBody.cs:150-153 | rotation then locomotion |
| Controller.HexaBody.RotateBody | Body/HexaBody.cs:156-163 | turn suppression and turn as BodyModel.RotateBody says |
| Controller.HexaBody.MoveBody | Body/HexaBody.cs:166-171 | the four locomotion tests in source order, as BodyModel.MoveBody says |
| Controller.HexaBody.MoveSphere | Body/HexaBody.cs:174-179 | unfreeze, moving, move drag, one torque of twice the force about the normalized axis appended |
| Controller.HexaBody.StopSphere | Body/HexaBody.cs:182-186 | brake drag, freeze only when stopped, not moving |
| Controller.HexaBody.RigToBody | Body/HexaBody.cs:139-142 | body x/z from the camera transform, y kept; XR camera rotation from the camera transform |
| Controller.HexaBody.Jump | Body/HexaBody.cs:189-192 | preload on press 1, then release on press 0 when jumping |
| Controller.HexaBody.JumpPreload | Body/HexaBody.cs:195-199 | jumping set, height lowered by one clamped step and in [minCrouch, maxCrouch], spine mirrored |
| Controller.HexaBody.JumpRelease | Body/HexaBody.cs:202-206 | jumping cleared, height raised by one clamped step and in [minCrouch, maxCrouch], spine mirrored |
| Controller.HexaBody.PhysicalCrouch | Body/HexaBody.cs:209-212 | height from the camera, in [minCrouch, maxCrouch − additionalHeight] with ordered bounds, spine mirrored |

## Left out

- Input sampling from the XR input actions (Body/HexaBody.cs:106-126) is engine I/O. Each tick's values are a `Sample` parameter. The right trackpad's touch value and y axis are sampled but never read, so `Sample` omits them.
- The left trackpad axis reaches the tick only through the move direction. The move direction is built by engine quaternion math (Body/HexaBody.cs:131-132), so it is a `Sample` input. The camera yaw that the chest takes is an input angle in degrees. The source reads it from the XR camera (Body/HexaBody.cs:131) before the rig sync, so it is the rotation that the previous tick's rig sync wrote (Body/HexaBody.cs:142). The model does not link the two, because that rotation is an opaque quaternion and the yaw is taken from it by Euler-angle math.
- Quaternion and Euler arithmetic is not modelled. `Transform.Rotate` on the head and `RotateAround` on the rig become additions to yaw angles. The rig's change of position around the body is not modelled. Angles are not wrapped to [0, 360).
- Rotations (hand rotations, the XR camera rotation) are copied as opaque values and never combined.
- The normalisation of the torque axis needs a square root, so it is not computed. A `Torque` records the unnormalised axis and the magnitude of the applied torque. The engine applies the normalized axis times that magnitude. The magnitude is twice the force, or zero when the axis is no longer than 1e-5 and `normalized` gives the zero vector. The test compares the squared length with (1e-5)².
- The rigid-body physics is not modelled: what a torque does to the sphere, where its velocity comes from, and the engine clearing accumulated torque after each step. Velocity is an input. The torque log keeps every torque issued.
- `Start` computes the height offset from transform scales and positions (Body/HexaBody.cs:84). It is the configuration value `additionalHeight`.
- `Time.fixedDeltaTime` is the parameter `dt`. No proof needs it to be positive. The non-increase results state their sign condition on crouchSpeed·dt.
- The `Debugs` logging (Body/HexaBody.cs:99-103) and the commented-out code are not modelled.
- Values are reals, so single-precision rounding is not modelled. The exact `==` comparisons on press and touch values are kept.
- The engine objects the controller drives (joints, rigid body, transforms) are fields of one object. Aliasing between them, and changes made to them by the engine between ticks, are not modelled.

=== FILE: crouch.dfy ===
/** The crouch heights written to the spine joint: the clamp and the three
    ways the controller computes a new crouch target height. */
module Crouch {
  import opened Settings

  /** The engine's clamp: below `lo` gives `lo`, otherwise above `hi` gives
      `hi`, otherwise the value itself. */
  function Clamp(value: real, lo: real, hi: real): (r: real)
    ensures lo <= hi ==> lo <= r <= hi
    ensures lo <= value <= hi ==> r == value
    ensures value < lo ==> r == lo
    ensures lo <= value && hi < value ==> r == hi
  {
    if value < lo then lo else if value > hi then hi else value
  }

  lemma ClampMonotone(a: real, b: real, lo: real, hi: real)
    requires lo <= hi && a <= b
    ensures Clamp(a, lo, hi) <= Clamp(b, lo, hi)
  {
  }

  /** Clamping after one downward (or upward) shift and then clamping after a
      second shift in the same direction equals one clamp after both shifts,
      provided the start lies in the bounds. */
  lemma ClampShiftTwice(x: real, p: real, q: real, total: real, lo: real, hi: real)
    requires lo <= x <= hi
    requires (0.0 <= p && 0.0 <= q) || (p <= 0.0 && q <= 0.0)
    requires total == p + q
    ensures Clamp(Clamp(x - p, lo, hi) - q, lo, hi) == Clamp(x - total, lo, hi)
  {
  }

  /** `n` times `step`, by repeated addition. */
  function Times(n: nat, step: real): (r: real)
    ensures 0.0 <= step ==> 0.0 <= r
    ensures step <= 0.0 ==> r <= 0.0
  {
    if n == 0 then 0.0 else step + Times(n - 1, step)
  }

  lemma {:induction false} TimesIsProduct(n: nat, step: real)
    ensures Times(n, step) == (n as real) * step
  {
    if n > 0 {
      TimesIsProduct(n - 1, step);
    }
  }

  /** `n` successive shifts down by `step`, each clamped to [lo, hi]. */
  function ClampedDescent(y: real, n: nat, step: real, lo: real, hi: real): real
    decreases n
  {
    if n == 0 then y else ClampedDescent(Clamp(y - step, lo, hi), n - 1, step, lo, hi)
  }

  /** From a start inside the bounds, n clamped shifts equal one clamp
      after the whole shift, and with a non-negative step never rise. */
  lemma {:induction false} ClampedDescentClosedForm(y: real, n: nat, step: real, lo: real, hi: real)
    requires lo <= y <= hi
    ensures ClampedDescent(y, n, step, lo, hi) == Clamp(y - Times(n, step), lo, hi)
    ensures 0.0 <= step ==> ClampedDescent(y, n, step, lo, hi) <= y
    decreases n
  {
    if n > 0 {
      ClampedDescentClosedForm(Clamp(y - step, lo, hi), n - 1, step, lo, hi);
      ClampShiftTwice(y, step, Times(n - 1, step), Times(n, step), lo, hi);
      if 0.0 <= step {
        ClampMonotone(y - Times(n, step), y, lo, hi);
      }
    }
  }

  /** How far one tick of the held jump button lowers the crouch target. */
  function CrouchStep(c: Config, dt: real): real
  {
    c.crouchSpeed * dt
  }

  /** How far the release tick raises the crouch target. */
  function JumpStep(c: Config, dt: real): real
  {
    c.jumpSpeed * dt
  }

  /** One tick of the virtual crouch while the jump button is held. */
  function PreloadHeight(c: Config, y: real, dt: real): (r: real)
    ensures c.minCrouch <= c.maxCrouch ==> c.minCrouch <= r <= c.maxCrouch
    ensures c.minCrouch <= y - CrouchStep(c, dt) <= c.maxCrouch ==> r == y - CrouchStep(c, dt)
    ensures c.minCrouch <= y <= c.maxCrouch && 0.0 <= CrouchStep(c, dt) ==> r <= y
  {
    Clamp(y - CrouchStep(c, dt), c.minCrouch, c.maxCrouch)
  }

  /** The crouch height after `n` successive preload ticks. */
  function PreloadSteps(c: Config, y: real, n: nat, dt: real): real
    decreases n
  {
    if n == 0 then y else PreloadSteps(c, PreloadHeight(c, y, dt), n - 1, dt)
  }

  /** From an in-bounds height, n preload ticks lower the height by n crouch
      steps, clamped once, and never raise it. */
  lemma {:induction false} PreloadStepsClosedForm(c: Config, y: real, n: nat, dt: real)
    requires c.minCrouch <= y <= c.maxCrouch
    ensures PreloadSteps(c, y, n, dt) == Clamp(y - Times(n, CrouchStep(c, dt)), c.minCrouch, c.maxCrouch)
    ensures 0.0 <= CrouchStep(c, dt) ==> PreloadSteps(c, y, n, dt) <= y
  {
    PreloadStepsAreDescent(c, y, n, dt);
    ClampedDescentClosedForm(y, n, CrouchStep(c, dt), c.minCrouch, c.maxCrouch);
  }

  lemma {:induction false} PreloadStepsAreDescent(c: Config, y: real, n: nat, dt: real)
    ensures PreloadSteps(c, y, n, dt) == ClampedDescent(y, n, CrouchStep(c, dt), c.minCrouch, c.maxCrouch)
    decreases n
  {
    if n > 0 {
      PreloadStepsAreDescent(c, PreloadHeight(c, y, dt), n - 1, dt);
    }
  }

  /** The one-shot rise when the jump button is released. */
  function ReleaseHeight(c: Config, y: real, dt: real): (r: real)
    ensures c.minCrouch <= c.maxCrouch ==> c.minCrouch <= r <= c.maxCrouch
    ensures c.minCrouch <= y + JumpStep(c, dt) <= c.maxCrouch ==> r == y + JumpStep(c, dt)
    ensures c.minCrouch <= y <= c.maxCrouch && 0.0 <= JumpStep(c, dt) ==> y <= r
  {
    Clamp(y + JumpStep(c, dt), c.minCrouch, c.maxCrouch)
  }

  /** The crouch height that follows the player's real head height. */
  function PhysicalHeight(c: Config, cameraY: real): (r: real)
    ensures BoundsOrdered(c) ==> c.minCrouch <= r <= c.maxCrouch - c.additionalHeight <= c.maxCrouch
    ensures c.minCrouch <= cameraY - c.additionalHeight <= c.maxCrouch - c.additionalHeight
            ==> r == cameraY - c.additionalHeight
  {
    Clamp(cameraY - c.additionalHeight, c.minCrouch, c.maxCrouch - c.additionalHeight)
  }

  /** A higher camera never gives a lower physical crouch height. */
  lemma PhysicalHeightMonotone(c: Config, y0: real, y1: real)
    requires BoundsOrdered(c) && y0 <= y1
    ensures PhysicalHeight(c, y0) <= PhysicalHeight(c, y1)
  {
    ClampMonotone(y0 - c.additionalHeight, y1 - c.additionalHeight, c.minCrouch, c.maxCrouch - c.additionalHeight);
  }

  /** With the start-up offset 0.2 and the default bounds, a camera at 1.0
      gives a crouch target of 0.8. */
  lemma ScenarioGroundedHeight()
    ensures PhysicalHeight(Defaults(0.2), 1.0) == 0.8
  {
  }
}

=== FILE: hexabody.dfy ===
/** The body controller as an object: the fields it updates each physics
    tick, including the engine objects it drives, and one method per step
    of the tick, each proved to do what the matching function of BodyModel
    says. */
module Controller {
  import opened Vectors
  import opened Settings
  import opened Crouch
  import M = BodyModel
  import P = TickProperties

  class HexaBody {
    const config: Config

    var jumping: bool
    var moving: bool
    var crouchTarget: Vec3
    // Engine objects the controller writes.
    var spineTarget: Vec3
    var angularDrag: real
    var freezeRotation: bool
    var torques: seq<M.Torque>
    var headYaw: real
    var rigYaw: real
    var chestYaw: real
    var bodyPosition: Vec3
    var cameraRotation: Quat
    var rightHandTarget: Vec3
    var rightHandRotation: Quat
    var leftHandTarget: Vec3
    var leftHandRotation: Quat

    /** The object's state as a value. */
    function State(): M.BodyState
      reads this
    {
      M.BodyState(jumping, moving, crouchTarget, spineTarget, angularDrag, freezeRotation, torques,
                  headYaw, rigYaw, chestYaw, bodyPosition, cameraRotation,
                  rightHandTarget, rightHandRotation, leftHandTarget, leftHandRotation)
    }

    /** A controller on a scene in state `scene`; it starts neither jumping
        nor moving. */
    constructor (config: Config, scene: M.BodyState)
      ensures this.config == config
      ensures State() == scene.(jumping := false, moving := false)
    {
      this.config := config;
      jumping, moving := false, false;
      crouchTarget, spineTarget := scene.crouchTarget, scene.spineTarget;
      angularDrag, freezeRotation, torques := scene.angularDrag, scene.freezeRotation, scene.torques;
      headYaw, rigYaw, chestYaw := scene.headYaw, scene.rigYaw, scene.chestYaw;
      bodyPosition, cameraRotation := scene.bodyPosition, scene.cameraRotation;
      rightHandTarget, rightHandRotation := scene.rightHandTarget, scene.rightHandRotation;
      leftHandTarget, leftHandRotation := scene.leftHandTarget, scene.leftHandRotation;
    }

    /** One physics tick, with the steps in the controller's order. */
    method FixedUpdate(s: M.Sample, dt: real)
      modifies this
      ensures State() == M.FixedUpdate(old(State()), config, s, dt)
      ensures BoundsOrdered(config) && M.CrouchInvariant(config, old(State())) ==> M.CrouchInvariant(config, State())
    {
      ghost var before := State();
      var torqueAxis := TorqueAxis(s.moveDirection);
      MoveAndRotateHands(s);
      MoveAndRotateBody(s, torqueAxis);
      RigToBody(s);
      Jump(s.rightPressed, dt);
      if !jumping {
        PhysicalCrouch(s.cameraPosition.y);
      }
      if BoundsOrdered(config) && M.CrouchInvariant(config, before) {
        P.TickPreservesCrouchInvariant(before, config, s, dt);
      }
    }

    method MoveAndRotateHands(s: M.Sample)
      modifies this
      ensures State() == M.MoveAndRotateHands(old(State()), s)
    {
      rightHandTarget := HandTarget(s.rightHandPosition, s.cameraPosition);
      leftHandTarget := HandTarget(s.leftHandPosition, s.cameraPosition);
      rightHandRotation := s.rightHandRotation;
      leftHandRotation := s.leftHandRotation;
    }

    method MoveAndRotateBody(s: M.Sample, torqueAxis: Vec3)
      modifies this
      ensures State() == M.MoveAndRotateBody(old(State()), config, s, torqueAxis)
    {
      RotateBody(s);
      MoveBody(s, torqueAxis);
    }

    method RotateBody(s: M.Sample)
      modifies this
      ensures State() == M.RotateBody(old(State()), config, s)
    {
      if s.rightPressed == 1.0 {
        return;
      }
      headYaw := headYaw + s.rightTrackpadX * config.turnSpeed;
      rigYaw := rigYaw + s.rightTrackpadX * config.turnSpeed;
      chestYaw := s.cameraYaw;
    }

    method MoveBody(s: M.Sample, torqueAxis: Vec3)
      modifies this
      ensures State() == M.MoveBody(old(State()), config, s, torqueAxis)
    {
      if s.leftTouched == 0.0 {
        StopSphere(s.sphereVelocity);
      }
      if s.leftTouched == 1.0 && s.leftPressed == 0.0 {
        MoveSphere(torqueAxis, config.moveForceWalk);
      }
      if s.leftTouched == 1.0 && s.leftPressed == 1.0 {
        MoveSphere(torqueAxis, config.moveForceSprint);
      }
      if jumping && s.leftTouched == 1.0 {
        MoveSphere(torqueAxis, config.moveForceCrouch);
      }
    }

    /** Adds a torque of twice `force` about the normalized `torqueAxis`
        (nothing when the axis is too short to normalize) and lets the
        sphere roll. */
    method MoveSphere(torqueAxis: Vec3, force: real)
      modifies this
      ensures State() == M.MoveSphere(old(State()), config, torqueAxis, force)
    {
      freezeRotation := false;
      moving := true;
      angularDrag := config.angularDragOnMove;
      torques := torques + [M.AppliedTorque(torqueAxis, force)];
    }

    /** Brakes the sphere, freezing its rotation once it has stopped. */
    method StopSphere(velocity: Vec3)
      modifies this
      ensures State() == M.StopSphere(old(State()), config, velocity)
    {
      angularDrag := config.angularBreakDrag;
      if M.Stopped(velocity) {
        freezeRotation := true;
      }
      moving := false;
    }

    /** Keeps the body under the player's real position and the XR camera
        aligned with the tracked camera. */
    method RigToBody(s: M.Sample)
      modifies this
      ensures State() == M.RigToBody(old(State()), s)
    {
      bodyPosition := Vec3(s.cameraTransformPosition.x, bodyPosition.y, s.cameraTransformPosition.z);
      cameraRotation := s.cameraTransformRotation;
    }

    method Jump(rightPressed: real, dt: real)
      modifies this
      ensures State() == M.Jump(old(State()), config, dt, rightPressed)
    {
      if rightPressed == 1.0 {
        JumpPreload(dt);
      }
      if rightPressed == 0.0 && jumping {
        JumpRelease(dt);
      }
    }

    /** Lowers the crouch target for the jump while the button is held. */
    method JumpPreload(dt: real)
      modifies this
      ensures State() == M.JumpPreload(old(State()), config, dt)
      ensures config.minCrouch <= config.maxCrouch ==> config.minCrouch <= crouchTarget.y <= config.maxCrouch
    {
      jumping := true;
      crouchTarget := crouchTarget.(y := PreloadHeight(config, crouchTarget.y, dt));
      spineTarget := Vec3(0.0, crouchTarget.y, 0.0);
    }

    /** Raises the crouch target when the button is released. */
    method JumpRelease(dt: real)
      modifies this
      ensures State() == M.JumpRelease(old(State()), config, dt)
      ensures config.minCrouch <= config.maxCrouch ==> config.minCrouch <= crouchTarget.y <= config.maxCrouch
    {
      jumping := false;
      crouchTarget := crouchTarget.(y := ReleaseHeight(config, crouchTarget.y, dt));
      spineTarget := Vec3(0.0, crouchTarget.y, 0.0);
    }

    /** Sets the crouch target from the player's real head height. */
    method PhysicalCrouch(cameraY: real)
      modifies this
      ensures State() == M.PhysicalCrouch(old(State()), config, cameraY)
      ensures BoundsOrdered(config) ==>
                config.minCrouch <= crouchTarget.y <= config.maxCrouch - config.additionalHeight
    {
      crouchTarget := crouchTarget.(y := PhysicalHeight(config, cameraY));
      spineTarget := Vec3(0.0, crouchTarget.y, 0.0);
    }
  }
}

=== FILE: model.dfy ===
/** One physics tick of the body controller as a function on values: the
    per-actor state before the tick, the tuning, the tick's input samples
    and the tick length give the state after the tick. Each sub-step is its
    own function and the tick calls them in the controller's order. */
module BodyModel {
  import opened Vectors
  import opened Settings
  import opened Crouch

  /** What one tick reads from the tracking devices and the engine. */
  datatype Sample = Sample(
    cameraPosition: Vec3,           // sampled camera (head) position
    rightHandPosition: Vec3,
    rightHandRotation: Quat,
    leftHandPosition: Vec3,
    leftHandRotation: Quat,
    rightTrackpadX: real,           // horizontal axis of the right trackpad
    rightPressed: real,             // right trackpad press value
    leftPressed: real,              // left trackpad press value
    leftTouched: real,              // left trackpad touch value
    cameraYaw: real,                // yaw of the XR camera read before this tick's rig
                                    // sync, in degrees: the rotation written by the
                                    // previous tick's RigToBody
    moveDirection: Vec3,            // left trackpad turned by the camera yaw
    cameraTransformPosition: Vec3,  // the camera controller's transform
    cameraTransformRotation: Quat,
    sphereVelocity: Vec3)           // the rolling sphere's velocity

  /** A torque applied to the rolling sphere: the unit vector along `axis`
      scaled by `magnitude`. The magnitude is zero when `axis` is too short
      to normalize, since the engine's `normalized` then gives zero. */
  datatype Torque = Torque(axis: Vec3, magnitude: real)

  /** The torque applied for a command of twice `force` about the
      normalized `axis`. */
  function AppliedTorque(axis: Vec3, force: real): (t: Torque)
    ensures t.axis == axis
    ensures Normalizable(axis) ==> t.magnitude == force * 2.0
    ensures !Normalizable(axis) ==> t.magnitude == 0.0
  {
    Torque(axis, if Normalizable(axis) then force * 2.0 else 0.0)
  }

  /** The state the controller keeps or writes: its own fields and the
      engine objects it drives (spine and hand joints, the sphere's rigid
      body, the head, chest, rig, body and camera transforms). */
  datatype BodyState = BodyState(
    jumping: bool,
    moving: bool,
    crouchTarget: Vec3,
    spineTarget: Vec3,              // spine joint target position
    angularDrag: real,              // sphere rigid body
    freezeRotation: bool,           // sphere rigid body
    torques: seq<Torque>,           // every torque added to the sphere, in order
    headYaw: real,                  // head transform yaw, degrees
    rigYaw: real,                   // rig transform yaw, degrees
    chestYaw: real,                 // chest transform yaw, degrees
    bodyPosition: Vec3,
    cameraRotation: Quat,           // XR camera transform rotation
    rightHandTarget: Vec3,
    rightHandRotation: Quat,
    leftHandTarget: Vec3,
    leftHandRotation: Quat)

  /** The crouch target height is mirrored into the spine target. */
  predicate SpineMirrorsCrouch(st: BodyState)
  {
    st.spineTarget == Vec3(0.0, st.crouchTarget.y, 0.0)
  }

  /** The crouch invariant: the height lies in [minCrouch, maxCrouch], in
      [minCrouch, maxCrouch - additionalHeight] when not jumping, and the
      spine target mirrors it. */
  predicate CrouchInvariant(c: Config, st: BodyState)
  {
    && c.minCrouch <= st.crouchTarget.y <= c.maxCrouch
    && (!st.jumping ==> st.crouchTarget.y <= c.maxCrouch - c.additionalHeight)
    && SpineMirrorsCrouch(st)
  }

  /** Write a new crouch height and mirror it into the spine target. */
  function WriteCrouch(st: BodyState, y: real): BodyState
  {
    st.(crouchTarget := st.crouchTarget.(y := y), spineTarget := Vec3(0.0, y, 0.0))
  }

  function JumpPreload(st: BodyState, c: Config, dt: real): BodyState
  {
    WriteCrouch(st.(jumping := true), PreloadHeight(c, st.crouchTarget.y, dt))
  }

  function JumpRelease(st: BodyState, c: Config, dt: real): BodyState
  {
    WriteCrouch(st.(jumping := false), ReleaseHeight(c, st.crouchTarget.y, dt))
  }

  function Jump(st: BodyState, c: Config, dt: real, rightPressed: real): BodyState
  {
    var preloaded := if rightPressed == 1.0 then JumpPreload(st, c, dt) else st;
    if rightPressed == 0.0 && preloaded.jumping then JumpRelease(preloaded, c, dt) else preloaded
  }

  function PhysicalCrouch(st: BodyState, c: Config, cameraY: real): BodyState
  {
    WriteCrouch(st, PhysicalHeight(c, cameraY))
  }

  function MoveSphere(st: BodyState, c: Config, axis: Vec3, force: real): BodyState
  {
    st.(freezeRotation := false, moving := true, angularDrag := c.angularDragOnMove,
        torques := st.torques + [AppliedTorque(axis, force)])
  }

  /** The sphere counts as stopped when its velocity compares equal to the
      zero vector under the engine's vector equality. */
  predicate Stopped(velocity: Vec3)
  {
    ApproxEqual(velocity, Zero)
  }

  function StopSphere(st: BodyState, c: Config, velocity: Vec3): BodyState
  {
    st.(angularDrag := c.angularBreakDrag,
        freezeRotation := if Stopped(velocity) then true else st.freezeRotation,
        moving := false)
  }

  function MoveBody(st: BodyState, c: Config, s: Sample, axis: Vec3): BodyState
  {
    var braked := if s.leftTouched == 0.0 then StopSphere(st, c, s.sphereVelocity) else st;
    var walked := if s.leftTouched == 1.0 && s.leftPressed == 0.0
                  then MoveSphere(braked, c, axis, c.moveForceWalk) else braked;
    var sprinted := if s.leftTouched == 1.0 && s.leftPressed == 1.0
                    then MoveSphere(walked, c, axis, c.moveForceSprint) else walked;
    if sprinted.jumping && s.leftTouched == 1.0
    then MoveSphere(sprinted, c, axis, c.moveForceCrouch) else sprinted
  }

  function RotateBody(st: BodyState, c: Config, s: Sample): BodyState
  {
    if s.rightPressed == 1.0 then st
    else
      var turn := s.rightTrackpadX * c.turnSpeed;
      st.(headYaw := st.headYaw + turn, rigYaw := st.rigYaw + turn, chestYaw := s.cameraYaw)
  }

  function MoveAndRotateBody(st: BodyState, c: Config, s: Sample, axis: Vec3): BodyState
  {
    MoveBody(RotateBody(st, c, s), c, s, axis)
  }

  function MoveAndRotateHands(st: BodyState, s: Sample): BodyState
  {
    st.(rightHandTarget := HandTarget(s.rightHandPosition, s.cameraPosition),
        leftHandTarget := HandTarget(s.leftHandPosition, s.cameraPosition),
        rightHandRotation := s.rightHandRotation,
        leftHandRotation := s.leftHandRotation)
  }

  function RigToBody(st: BodyState, s: Sample): BodyState
  {
    st.(bodyPosition := Vec3(s.cameraTransformPosition.x, st.bodyPosition.y, s.cameraTransformPosition.z),
        cameraRotation := s.cameraTransformRotation)
  }

  /** One physics tick: hands, body rotation and locomotion, rig sync, the
      jump state machine, then the physical crouch unless jumping. */
  function FixedUpdate(st: BodyState, c: Config, s: Sample, dt: real): BodyState
  {
    var axis := TorqueAxis(s.moveDirection);
    var handsDone := MoveAndRotateHands(st, s);
    var bodyDone := MoveAndRotateBody(handsDone, c, s, axis);
    var rigDone := RigToBody(bodyDone, s);
    var jumpDone := Jump(rigDone, c, dt, s.rightPressed);
    if !jumpDone.jumping then PhysicalCrouch(jumpDone, c, s.cameraPosition.y) else jumpDone
  }

  /** Successive ticks, one per sample, with fixed tuning and tick length. */
  function Run(st: BodyState, c: Config, samples: seq<Sample>, dt: real): BodyState
    decreases |samples|
  {
    if samples == [] then st else Run(FixedUpdate(st, c, samples[0], dt), c, samples[1..], dt)
  }

  /** The forces the locomotion rule issues while the left pad is touched,
      in issue order: walk or sprint by the press value, then the crouch
      force when the jumping flag (as it stood before the tick) is set. */
  function DriveForces(c: Config, leftPressed: real, jumping: bool): seq<real>
  {
    (if leftPressed == 0.0 then [c.moveForceWalk]
     else if leftPressed == 1.0 then [c.moveForceSprint]
     else [])
    + (if jumping then [c.moveForceCrouch] else [])
  }

  /** The torque applied for a move direction `m`: twice the force when the
      horizontal part of `m` is longer than the tolerance, and nothing when
      it is not (the pad touched at its centre). */
  lemma MoveDirectionTorque(m: Vec3, force: real)
    ensures AppliedTorque(TorqueAxis(m), force).axis == TorqueAxis(m)
    ensures m.x * m.x + m.z * m.z > EqualityTolerance * EqualityTolerance ==>
              AppliedTorque(TorqueAxis(m), force).magnitude == force * 2.0
    ensures m.x * m.x + m.z * m.z <= EqualityTolerance * EqualityTolerance ==>
              AppliedTorque(TorqueAxis(m), force).magnitude == 0.0
  {
    TorqueAxisNormalizable(m);
  }

  /** The torques applied for commands about one axis, one per force. */
  function Commands(axis: Vec3, forces: seq<real>): (r: seq<Torque>)
    ensures |r| == |forces|
    ensures forall i :: 0 <= i < |forces| ==> r[i] == AppliedTorque(axis, forces[i])
  {
    if forces == [] then [] else [AppliedTorque(axis, forces[0])] + Commands(axis, forces[1..])
  }
}

=== FILE: properties.dfy ===
/** What one tick and a run of ticks guarantee about the crouch/jump state
    machine, the locomotion rule, turning and the joint targets. */
module TickProperties {
  import opened Vectors
  import opened Settings
  import opened Crouch
  import opened BodyModel

  // ---- Which fields each sub-step may change ---------------------------

  /** The jump state machine changes only the jumping flag, the crouch
      height and the spine target. */
  lemma JumpFrame(st: BodyState, c: Config, dt: real, rightPressed: real)
    ensures var j := Jump(st, c, dt, rightPressed);
      j == st.(jumping := j.jumping, crouchTarget := st.crouchTarget.(y := j.crouchTarget.y),
               spineTarget := j.spineTarget)
  {
  }

  /** The locomotion rule changes only the sphere's drag, freeze flag and
      torque log, and the moving flag. */
  lemma MoveBodyFrame(st: BodyState, c: Config, s: Sample, axis: Vec3)
    ensures var m := MoveBody(st, c, s, axis);
      m == st.(moving := m.moving, angularDrag := m.angularDrag, freezeRotation := m.freezeRotation,
               torques := m.torques)
  {
  }

  // ---- Crouch / jump state machine -------------------------------------

  /** A tick with the jump button up ends grounded with the physical crouch
      height, also on the releasing tick: the release rise is overwritten in
      the tick that produces it. */
  lemma ReleasedTick(st: BodyState, c: Config, s: Sample, dt: real)
    requires s.rightPressed == 0.0
    ensures var r := FixedUpdate(st, c, s, dt);
      && !r.jumping
      && r.crouchTarget == st.crouchTarget.(y := PhysicalHeight(c, s.cameraPosition.y))
      && SpineMirrorsCrouch(r)
  {
  }

  /** A tick with the jump button held preloads: it sets the jumping flag,
      lowers the crouch height by one clamped step and skips the physical
      crouch; from an in-bounds height the height never rises. */
  lemma PressedTick(st: BodyState, c: Config, s: Sample, dt: real)
    requires s.rightPressed == 1.0
    ensures var r := FixedUpdate(st, c, s, dt);
      && r.jumping
      && r.crouchTarget == st.crouchTarget.(y := PreloadHeight(c, st.crouchTarget.y, dt))
      && SpineMirrorsCrouch(r)
      && (c.minCrouch <= st.crouchTarget.y <= c.maxCrouch && 0.0 <= CrouchStep(c, dt)
          ==> r.crouchTarget.y <= st.crouchTarget.y)
  {
  }

  /** A press value that is neither 0 nor 1 triggers no jump branch: a
      jumping body keeps its crouch and spine targets, a grounded one takes
      the physical crouch. */
  lemma UndecidedPressTick(st: BodyState, c: Config, s: Sample, dt: real)
    requires s.rightPressed != 0.0 && s.rightPressed != 1.0
    ensures var r := FixedUpdate(st, c, s, dt);
      && r.jumping == st.jumping
      && (st.jumping ==> r.crouchTarget == st.crouchTarget && r.spineTarget == st.spineTarget)
      && (!st.jumping ==> r.crouchTarget == st.crouchTarget.(y := PhysicalHeight(c, s.cameraPosition.y))
                          && SpineMirrorsCrouch(r))
  {
  }

  /** Every tick that writes the crouch height leaves the crouch invariant
      in place, from any prior state. */
  lemma TickEstablishesCrouchInvariant(st: BodyState, c: Config, s: Sample, dt: real)
    requires BoundsOrdered(c)
    requires s.rightPressed == 0.0 || s.rightPressed == 1.0 || !st.jumping
    ensures CrouchInvariant(c, FixedUpdate(st, c, s, dt))
  {
    if s.rightPressed == 1.0 {
      PressedTick(st, c, s, dt);
    } else if s.rightPressed == 0.0 {
      ReleasedTick(st, c, s, dt);
    } else {
      UndecidedPressTick(st, c, s, dt);
    }
  }

  /** Every tick preserves the crouch invariant. */
  lemma TickPreservesCrouchInvariant(st: BodyState, c: Config, s: Sample, dt: real)
    requires BoundsOrdered(c) && CrouchInvariant(c, st)
    ensures CrouchInvariant(c, FixedUpdate(st, c, s, dt))
  {
    if s.rightPressed == 0.0 || s.rightPressed == 1.0 || !st.jumping {
      TickEstablishesCrouchInvariant(st, c, s, dt);
    } else {
      UndecidedPressTick(st, c, s, dt);
    }
  }

  /** The jump speed never shows in the outcome of a tick: the only write
      that uses it is overwritten by the physical crouch in the same tick. */
  lemma JumpSpeedHasNoEffect(st: BodyState, c: Config, s: Sample, dt: real, jumpSpeed: real)
    ensures FixedUpdate(st, c.(jumpSpeed := jumpSpeed), s, dt) == FixedUpdate(st, c, s, dt)
  {
    var c2 := c.(jumpSpeed := jumpSpeed);
    var axis := TorqueAxis(s.moveDirection);
    var handsDone := MoveAndRotateHands(st, s);
    assert RotateBody(handsDone, c2, s) == RotateBody(handsDone, c, s);
    var rotated := RotateBody(handsDone, c, s);
    assert MoveBody(rotated, c2, s, axis) == MoveBody(rotated, c, s, axis);
    var rigDone := RigToBody(MoveBody(rotated, c, s, axis), s);
    var j1 := Jump(rigDone, c, dt, s.rightPressed);
    var j2 := Jump(rigDone, c2, dt, s.rightPressed);
    if s.rightPressed == 1.0 {
      assert j1 == j2;
    } else if s.rightPressed == 0.0 && rigDone.jumping {
      assert PhysicalCrouch(j1, c, s.cameraPosition.y) == PhysicalCrouch(j2, c2, s.cameraPosition.y);
    } else {
      assert j1 == rigDone == j2;
    }
  }

  // ---- Locomotion ------------------------------------------------------

  /** Left pad not touched: the sphere brakes. No torque is issued, the
      brake drag is set, the body stops moving, and rotation is frozen only
      when the sphere is stopped (otherwise the freeze flag is kept). */
  lemma BrakeTick(st: BodyState, c: Config, s: Sample, dt: real)
    requires s.leftTouched == 0.0
    ensures var r := FixedUpdate(st, c, s, dt);
      && r.torques == st.torques
      && r.angularDrag == c.angularBreakDrag
      && !r.moving
      && r.freezeRotation == (Stopped(s.sphereVelocity) || st.freezeRotation)
  {
  }

  /** Left pad touched: the torques issued are walk or sprint by the press
      value, then crouch when the body was jumping before this tick, each
      twice its force about the normalized torque axis of the move
      direction (zero when that axis is too short to normalize); any
      issued torque unfreezes the sphere, sets the moving drag and marks the
      body moving, and with no torque issued those stay as they were. */
  lemma DriveTick(st: BodyState, c: Config, s: Sample, dt: real)
    requires s.leftTouched == 1.0
    ensures var r := FixedUpdate(st, c, s, dt);
      var forces := DriveForces(c, s.leftPressed, st.jumping);
      && r.torques == st.torques + Commands(TorqueAxis(s.moveDirection), forces)
      && (forces != [] ==> r.angularDrag == c.angularDragOnMove && !r.freezeRotation && r.moving)
      && (forces == [] ==> r.angularDrag == st.angularDrag && r.freezeRotation == st.freezeRotation
                           && r.moving == st.moving)
  {
    var axis := TorqueAxis(s.moveDirection);
    var r := FixedUpdate(st, c, s, dt);
    var forces := DriveForces(c, s.leftPressed, st.jumping);
    var pre := RigToBody(MoveAndRotateBody(MoveAndRotateHands(st, s), c, s, axis), s);
    assert r.torques == pre.torques;
    if s.leftPressed == 0.0 {
      if st.jumping {
        assert Commands(axis, forces) == [AppliedTorque(axis, c.moveForceWalk), AppliedTorque(axis, c.moveForceCrouch)];
      } else {
        assert Commands(axis, forces) == [AppliedTorque(axis, c.moveForceWalk)];
      }
    } else if s.leftPressed == 1.0 {
      if st.jumping {
        assert Commands(axis, forces) == [AppliedTorque(axis, c.moveForceSprint), AppliedTorque(axis, c.moveForceCrouch)];
      } else {
        assert Commands(axis, forces) == [AppliedTorque(axis, c.moveForceSprint)];
      }
    } else {
      if st.jumping {
        assert Commands(axis, forces) == [AppliedTorque(axis, c.moveForceCrouch)];
      } else {
        assert Commands(axis, forces) == [];
      }
    }
  }

  /** Left pad touched at its centre: the move direction has no horizontal
      part, so every torque command of the tick applies nothing, while the
      sphere is still unfrozen and the body marked moving. */
  lemma CentredPadAppliesNothing(st: BodyState, c: Config, s: Sample, dt: real)
    requires s.leftTouched == 1.0 && s.moveDirection.x == 0.0 && s.moveDirection.z == 0.0
    ensures var r := FixedUpdate(st, c, s, dt);
      && |st.torques| <= |r.torques|
      && r.torques[..|st.torques|] == st.torques
      && (forall i :: |st.torques| <= i < |r.torques| ==> r.torques[i].magnitude == 0.0)
  {
    var axis := TorqueAxis(s.moveDirection);
    TorqueAxisNormalizable(s.moveDirection);
    DriveTick(st, c, s, dt);
    var r := FixedUpdate(st, c, s, dt);
    var added := Commands(axis, DriveForces(c, s.leftPressed, st.jumping));
    assert r.torques == st.torques + added;
    forall i | |st.torques| <= i < |r.torques|
      ensures r.torques[i].magnitude == 0.0
    {
      assert r.torques[i] == added[i - |st.torques|];
    }
  }

  /** A touch value that is neither 0 nor 1 leaves the sphere alone. */
  lemma IdleTouchTick(st: BodyState, c: Config, s: Sample, dt: real)
    requires s.leftTouched != 0.0 && s.leftTouched != 1.0
    ensures var r := FixedUpdate(st, c, s, dt);
      && r.torques == st.torques && r.angularDrag == st.angularDrag
      && r.freezeRotation == st.freezeRotation && r.moving == st.moving
  {
  }

  /** The exact zero velocity counts as stopped; a velocity with a component
      of size at least the tolerance does not. */
  lemma StoppedBounds(v: Vec3)
    ensures v == Zero ==> Stopped(v)
    ensures EqualityTolerance <= v.x || v.x <= -EqualityTolerance ==> !Stopped(v)
    ensures EqualityTolerance <= v.y || v.y <= -EqualityTolerance ==> !Stopped(v)
    ensures EqualityTolerance <= v.z || v.z <= -EqualityTolerance ==> !Stopped(v)
  {
    if EqualityTolerance <= v.x || v.x <= -EqualityTolerance {
      assert v.x * v.x >= EqualityTolerance * EqualityTolerance;
    }
    if EqualityTolerance <= v.y || v.y <= -EqualityTolerance {
      assert v.y * v.y >= EqualityTolerance * EqualityTolerance;
    }
    if EqualityTolerance <= v.z || v.z <= -EqualityTolerance {
      assert v.z * v.z >= EqualityTolerance * EqualityTolerance;
    }
  }

  // ---- Turning, hands, rig ---------------------------------------------

  /** With the jump button held the head, rig and chest do not turn;
      otherwise head and rig both turn by the right pad's x times the turn
      speed and the chest takes the camera yaw. */
  lemma TurnTick(st: BodyState, c: Config, s: Sample, dt: real)
    ensures var r := FixedUpdate(st, c, s, dt);
      && (s.rightPressed == 1.0 ==>
            r.headYaw == st.headYaw && r.rigYaw == st.rigYaw && r.chestYaw == st.chestYaw)
      && (s.rightPressed != 1.0 ==>
            && r.headYaw == st.headYaw + s.rightTrackpadX * c.turnSpeed
            && r.rigYaw == st.rigYaw + s.rightTrackpadX * c.turnSpeed
            && r.chestYaw == s.cameraYaw)
  {
  }

  /** With turn speed 3 and the right pad at x = 0.5, unpressed, the head
      turns by 1.5 degrees. */
  lemma ScenarioTurn(st: BodyState, s: Sample, dt: real)
    requires s.rightPressed == 0.0 && s.rightTrackpadX == 0.5
    ensures FixedUpdate(st, Defaults(0.2), s, dt).headYaw == st.headYaw + 1.5
  {
  }

  /** Hand joints target the hands relative to the camera and copy the hand
      rotations; the body takes the camera's horizontal position and keeps
      its height, and the XR camera takes the camera's rotation. */
  lemma PoseTick(st: BodyState, c: Config, s: Sample, dt: real)
    ensures var r := FixedUpdate(st, c, s, dt);
      && Add(s.cameraPosition, r.rightHandTarget) == s.rightHandPosition
      && Add(s.cameraPosition, r.leftHandTarget) == s.leftHandPosition
      && r.rightHandRotation == s.rightHandRotation
      && r.leftHandRotation == s.leftHandRotation
      && r.bodyPosition == Vec3(s.cameraTransformPosition.x, st.bodyPosition.y, s.cameraTransformPosition.z)
      && r.cameraRotation == s.cameraTransformRotation
  {
    var handsDone := MoveAndRotateHands(st, s);
    var bodyDone := MoveAndRotateBody(handsDone, c, s, TorqueAxis(s.moveDirection));
    MoveBodyFrame(RotateBody(handsDone, c, s), c, s, TorqueAxis(s.moveDirection));
    var rigDone := RigToBody(bodyDone, s);
    var jumpDone := Jump(rigDone, c, dt, s.rightPressed);
    JumpFrame(rigDone, c, dt, s.rightPressed);
  }

  // ---- Runs of ticks ---------------------------------------------------

  predicate AllPressed(samples: seq<Sample>)
  {
    forall i :: 0 <= i < |samples| ==> samples[i].rightPressed == 1.0
  }

  lemma {:induction false} RunSnoc(st: BodyState, c: Config, samples: seq<Sample>, last: Sample, dt: real)
    ensures Run(st, c, samples + [last], dt) == FixedUpdate(Run(st, c, samples, dt), c, last, dt)
    decreases |samples|
  {
    if samples == [] {
      assert samples + [last] == [last];
    } else {
      assert (samples + [last])[1..] == samples[1..] + [last];
      RunSnoc(FixedUpdate(st, c, samples[0], dt), c, samples[1..], last, dt);
    }
  }

  /** The crouch invariant holds after any number of ticks. */
  lemma {:induction false} RunPreservesCrouchInvariant(st: BodyState, c: Config, samples: seq<Sample>, dt: real)
    requires BoundsOrdered(c) && CrouchInvariant(c, st)
    ensures CrouchInvariant(c, Run(st, c, samples, dt))
    decreases |samples|
  {
    if samples != [] {
      TickPreservesCrouchInvariant(st, c, samples[0], dt);
      RunPreservesCrouchInvariant(FixedUpdate(st, c, samples[0], dt), c, samples[1..], dt);
    }
  }

  /** From any state that is not mid-gesture (such as a new controller's),
      every non-empty run of ticks ends with the crouch target in bounds and
      the spine mirroring it, whatever the crouch target was at the start. */
  lemma RunFromRestKeepsCrouchInBounds(st: BodyState, c: Config, samples: seq<Sample>, dt: real)
    requires BoundsOrdered(c) && !st.jumping && samples != []
    ensures CrouchInvariant(c, Run(st, c, samples, dt))
  {
    TickEstablishesCrouchInvariant(st, c, samples[0], dt);
    RunPreservesCrouchInvariant(FixedUpdate(st, c, samples[0], dt), c, samples[1..], dt);
  }

  lemma AllPressedTail(samples: seq<Sample>)
    requires AllPressed(samples) && samples != []
    ensures AllPressed(samples[1..])
  {
    forall i | 0 <= i < |samples[1..]| ensures samples[1..][i].rightPressed == 1.0 {
      assert samples[1..][i] == samples[i + 1];
    }
  }

  /** Holding the jump button for n ticks takes the crouch height through
      n clamped preload steps; the body ends jumping with the spine
      mirroring the height. */
  lemma {:induction false} HeldPressSteps(st: BodyState, c: Config, samples: seq<Sample>, dt: real)
    requires AllPressed(samples)
    ensures var r := Run(st, c, samples, dt);
      && r.crouchTarget.y == PreloadSteps(c, st.crouchTarget.y, |samples|, dt)
      && (samples != [] ==> r.jumping && SpineMirrorsCrouch(r))
    decreases |samples|
  {
    if samples != [] {
      PressedTick(st, c, samples[0], dt);
      AllPressedTail(samples);
      HeldPressSteps(FixedUpdate(st, c, samples[0], dt), c, samples[1..], dt);
    }
  }

  /** Holding the jump button for n ticks from an in-bounds height lowers
      the crouch height by n crouch steps, clamped once, and never raises
      it. */
  lemma {:induction false} HeldPressRun(st: BodyState, c: Config, samples: seq<Sample>, dt: real)
    requires c.minCrouch <= st.crouchTarget.y <= c.maxCrouch
    requires AllPressed(samples)
    ensures var r := Run(st, c, samples, dt);
      && r.crouchTarget.y == Clamp(st.crouchTarget.y - Times(|samples|, CrouchStep(c, dt)), c.minCrouch, c.maxCrouch)
      && (0.0 <= CrouchStep(c, dt) ==> r.crouchTarget.y <= st.crouchTarget.y)
  {
    HeldPressSteps(st, c, samples, dt);
    PreloadStepsClosedForm(c, st.crouchTarget.y, |samples|, dt);
  }

  /** Holding the jump button for any number of ticks turns neither the
      head, the rig nor the chest. */
  lemma {:induction false} HeldPressNoTurn(st: BodyState, c: Config, samples: seq<Sample>, dt: real)
    requires AllPressed(samples)
    ensures var r := Run(st, c, samples, dt);
      r.headYaw == st.headYaw && r.rigYaw == st.rigYaw && r.chestYaw == st.chestYaw
    decreases |samples|
  {
    if samples != [] {
      TurnTick(st, c, samples[0], dt);
      AllPressedTail(samples);
      HeldPressNoTurn(FixedUpdate(st, c, samples[0], dt), c, samples[1..], dt);
    }
  }

  /** Any run of ticks closed by a release tick (press 0) ends grounded at
      the physical crouch height of the release tick. In particular a jump
      gesture, any number of held ticks followed by a release, ends there,
      whatever the preload reached and whatever the height before the
      press. */
  lemma ReleaseAfterAnyRun(st: BodyState, c: Config, run: seq<Sample>, release: Sample, dt: real)
    requires release.rightPressed == 0.0
    ensures var r := Run(st, c, run + [release], dt);
      && !r.jumping
      && r.crouchTarget.y == PhysicalHeight(c, release.cameraPosition.y)
      && SpineMirrorsCrouch(r)
  {
    RunSnoc(st, c, run, release, dt);
    ReleasedTick(Run(st, c, run, dt), c, release, dt);
  }

  /** A gesture that starts grounded at the physical height for a camera at
      `y0` and is released with the camera no lower than `y0` ends no lower
      than it started. */
  lemma ReleaseNotBelowGroundedStart(st: BodyState, c: Config, run: seq<Sample>, release: Sample, dt: real, y0: real)
    requires BoundsOrdered(c)
    requires st.crouchTarget.y == PhysicalHeight(c, y0)
    requires release.rightPressed == 0.0 && y0 <= release.cameraPosition.y
    ensures Run(st, c, run + [release], dt).crouchTarget.y >= st.crouchTarget.y
  {
    ReleaseAfterAnyRun(st, c, run, release, dt);
    PhysicalHeightMonotone(c, y0, release.cameraPosition.y);
  }

  /** Without that condition the gesture can end lower than it started:
      with additional height 0.2 and the default bounds, a body grounded at
      0.8 that is released with the camera at 0.6 ends at 0.4. */
  lemma ReleaseCanEndBelowStart(st: BodyState, run: seq<Sample>, release: Sample, dt: real)
    requires st.crouchTarget.y == 0.8
    requires release.rightPressed == 0.0 && release.cameraPosition.y == 0.6
    ensures Run(st, Defaults(0.2), run + [release], dt).crouchTarget.y == 0.4
    ensures Run(st, Defaults(0.2), run + [release], dt).crouchTarget.y < st.crouchTarget.y
  {
    ReleaseAfterAnyRun(st, Defaults(0.2), run, release, dt);
  }
}

=== FILE: settings.dfy ===
/** The controller's tuning parameters, fixed for a run. */
module Settings {

  datatype Config = Config(
    turnSpeed: real,
    moveForceCrouch: real,
    moveForceWalk: real,
    moveForceSprint: real,
    angularDragOnMove: real,
    angularBreakDrag: real,
    crouchSpeed: real,
    jumpSpeed: real,
    minCrouch: real,
    maxCrouch: real,
    // Offset between the tracked camera height and the body's ground
    // contact, computed once at start-up from the rig's geometry.
    additionalHeight: real)

  /** The component's default tuning, with the start-up offset supplied. */
  function Defaults(additionalHeight: real): Config
  {
    Config(3.0, 15.0, 30.0, 45.0, 40.0, 100.0, 1.0, 1.2, 0.3, 1.8, additionalHeight)
  }

  /** The crouch bounds make sense: the physical-crouch range
      [minCrouch, maxCrouch - additionalHeight] is non-empty and lies inside
      [minCrouch, maxCrouch]. */
  predicate BoundsOrdered(c: Config)
  {
    0.0 <= c.additionalHeight && c.minCrouch <= c.maxCrouch - c.additionalHeight
  }
}

=== FILE: vectors.dfy ===
/** Engine vectors and rotations with real components, and the two vector
    maps of the controller: the sphere's torque axis and the hand targets. */
module Vectors {

  datatype Vec3 = Vec3(x: real, y: real, z: real)

  /** A rotation as the engine stores it. The model only copies rotations;
      it never composes or converts them. */
  datatype Quat = Quat(x: real, y: real, z: real, w: real)

  const Zero: Vec3 := Vec3(0.0, 0.0, 0.0)

  function Add(a: Vec3, b: Vec3): Vec3
  {
    Vec3(a.x + b.x, a.y + b.y, a.z + b.z)
  }

  function Sub(a: Vec3, b: Vec3): (r: Vec3)
    ensures Add(r, b) == a
  {
    Vec3(a.x - b.x, a.y - b.y, a.z - b.z)
  }

  function Dot(a: Vec3, b: Vec3): real
  {
    a.x * b.x + a.y * b.y + a.z * b.z
  }

  function SqrMagnitude(v: Vec3): real
  {
    Dot(v, v)
  }

  /** The tolerance of the engine's vector equality operator: two vectors
      compare equal when the squared length of their difference is below
      the square of this value. */
  const EqualityTolerance: real := 0.00001

  /** The engine's `==` on vectors. */
  predicate ApproxEqual(a: Vec3, b: Vec3)
  {
    SqrMagnitude(Sub(a, b)) < EqualityTolerance * EqualityTolerance
  }

  /** Whether the engine's `normalized` gives a unit vector for `v`. It
      does when the length of `v` exceeds the tolerance; otherwise it gives
      the zero vector. Comparing squared lengths avoids the square root. */
  predicate Normalizable(v: Vec3)
  {
    SqrMagnitude(v) > EqualityTolerance * EqualityTolerance
  }

  /** The axis about which the rolling sphere is torqued to roll along the
      move direction `m`: `m` turned a quarter turn about the vertical axis. */
  function TorqueAxis(m: Vec3): (t: Vec3)
    ensures t.y == 0.0
    ensures Dot(t, m) == 0.0
    ensures t.x * t.x + t.z * t.z == m.x * m.x + m.z * m.z
  {
    Vec3(m.z, 0.0, -m.x)
  }

  /** Two quarter turns reverse the horizontal part of the direction. */
  lemma TorqueAxisHalfTurn(m: Vec3)
    ensures TorqueAxis(TorqueAxis(m)) == Vec3(-m.x, 0.0, -m.z)
  {
  }

  /** The torque axis can be normalized exactly when the horizontal part of
      the move direction is longer than the tolerance; a move direction
      with no horizontal part gives an axis that cannot be normalized. */
  lemma TorqueAxisNormalizable(m: Vec3)
    ensures Normalizable(TorqueAxis(m)) <==> m.x * m.x + m.z * m.z > EqualityTolerance * EqualityTolerance
    ensures m.x == 0.0 && m.z == 0.0 ==> !Normalizable(TorqueAxis(m))
  {
  }

  /** A hand joint's target: the hand's position relative to the camera. */
  function HandTarget(hand: Vec3, camera: Vec3): (r: Vec3)
    ensures Add(camera, r) == hand
  {
    Sub(hand, camera)
  }

  /** Moving hand and camera together leaves the hand target unchanged, so
      hand targets do not depend on where the rig stands. */
  lemma HandTargetTranslationInvariant(hand: Vec3, camera: Vec3, d: Vec3)
    ensures HandTarget(Add(hand, d), Add(camera, d)) == HandTarget(hand, camera)
  {
  }
}
